=== FILE: README.md ===
# Text-to-speech page controller, modelled in Dafny

This project models the controller of a browser text-to-speech page
(`script.js`). A user types text, picks a voice from a dropdown and presses
play or stop. The controller keeps a busy flag (`isAudioPlaying`) and the
selected voice, shows error text, switches the play and stop buttons, fills
the dropdown from the engine's voice list and sends requests to the host's
speech engine.

The model has two layers.

- `Playback` describes the page as a value (`Page`: the two globals, the
  error region, the four button properties, the option labels and the log
  of commands sent to the engine) and each handler as a function from the
  page before to the page after. Their contracts say what each handler
  promises.
- `Script.Controller` is the page as an object with those fields. Each
  handler is a method that updates the fields in place as the script does,
  and is proved to end in the state the matching `Playback` function gives.

The speech engine is reduced to a log of `Speak(text, voice)` and `Cancel`
commands and to the voice list it reports, which the handlers take as a
parameter. Its completion and error notifications are the `OnEnd` and
`OnError` handlers, which the environment may call at any time.
`PlaybackTraces` runs sequences of events through the handlers. It proves
what holds along every such sequence, both for the handlers as written and
for corrected play and dropdown handlers (see "## Findings").

Supporting modules:

- `JsString` models `String.prototype.trim`.
- `HtmlText` models the HTML rule that gives an `<option>` without a `value`
  attribute its value: its text, with ASCII white space stripped from both ends
  and each inner run of it collapsed to one space.
- `Voices` covers voices, option labels and values, the default-voice choice
  and the lookups by name and by option value.
- `EngineErrors` holds the table from engine error codes to messages.
- `Wrappers` holds `Option` and the first-match search behind `Array.prototype.find`.

The error callback recognises ten engine error codes. Every other code,
"unknown" included, gets "Unknown error occurred".

## Model

| member | source | states |
|---|---|---|
| `Wrappers.FirstWhere` | script.js:230-232 | the first index whose element satisfies the test, or none exactly when no element does (the search `find` performs) |
| `JsString.TrimStart` | script.js:40 | the result is the suffix of the input that starts at its first non-white-space character; everything dropped is white space |
| `JsString.TrimEnd` | script.js:40 | the result is the prefix of the input that ends at its last non-white-space character; everything dropped is white space |
| `JsString.Trim` | script.js:40 | `textArea.value.trim()`: the result is no longer than the text and neither starts nor ends with white space; `TrimSpec` states that what it drops on either side is white space |
| `JsString.TrimSpec` | script.js:40 | `trim` gives a contiguous piece of the text that neither starts nor ends with white space, with only white space before and after it in the text, and the piece is empty exactly when the text is all white space; these clauses determine the result |
| `JsString.TrimUnique` | script.js:40 | any piece of the text with non-white-space ends, only white space around it, and empty exactly when the text is all white space, is the `trim` result |
| `HtmlText.Collapse` | script.js:168-169 | the value HTML gives the option built here, which has text but no `value` attribute: no ASCII white space at either end, each inner white space a single space before a visible character, and the visible characters of the text kept in order |
| `Voices.LabelMarksDefault` | script.js:169-174 | an option label ends with the DEFAULT suffix if and only if its voice is flagged default |
| `Voices.Label` | script.js:170-174 | an option label is strictly longer than its voice's name, so it never equals it; `LabelExtendsName` and `LabelMarksDefault` state its start and its DEFAULT suffix |
| `Voices.LabelExtendsName` | script.js:170 | an option label starts with the voice's name |
| `Voices.Labels` | script.js:166-185 | the rebuilt dropdown has one label per voice, in the engine's order, each of the form `name (lang)` |
| `Voices.FindByName` | script.js:230-232 | gives the first voice whose name equals the value, or nothing exactly when no voice has that name |
| `Voices.FindByValue` | script.js:228-232 | gives the first voice whose option value equals the dropdown's value, or nothing exactly when no option has that value (the corrected lookup) |
| `Voices.OptionValueDiffersFromName` | script.js:168-177 | the value of a voice's option, which has no `value` attribute, never equals the voice's name |
| `Voices.LabelShowsMoreThanName` | script.js:170-174 | a label has at least two more non-white-space characters than its voice's name |
| `Voices.FirstDefault` | script.js:180-184 | gives the first default-flagged voice, or nothing exactly when no voice is flagged default |
| `Voices.ChooseVoice` | script.js:180-191 | keeps an existing selection; otherwise gives the first default-flagged voice, else the first voice; when nothing was selected, a non-empty list yields a selection taken from the list; a kept selection need not be in the new list |
| `EngineErrors.ErrorMessage` | script.js:80-113 | a code gets "Unknown error occurred" if and only if it is not one of the ten recognised codes; no message is empty |
| `EngineErrors.MessageIdentifiesCode` | script.js:80-113 | the ten recognised codes get ten distinct messages: each message leads back to its code |
| `Playback.DisplayError` | script.js:204-207 | the error region shows the message and is visible; nothing else changes |
| `Playback.HideError` | script.js:223-225 | editing the text hides the error region and keeps its text; nothing else changes |
| `Playback.ToggleButtonState` | script.js:210-220 | the buttons take the layout of the flag: play disabled exactly when playing, stop the opposite, and exactly one of them visible; only the buttons change |
| `Playback.FirstVoice` | script.js:51 | `getVoices()[0]` is the first voice, or undefined exactly when the list is empty |
| `Playback.TryPlay` | script.js:33-127 | the try block throws exactly when a guard rejects (playing, empty text after trimming, no voice) and then shows that guard's reason without touching flag, buttons or log; otherwise it sends exactly one `speak` with the trimmed text and the selected voice and sets the flag |
| `Playback.Caught` | script.js:138-142 | the catch block clears the flag and replaces the message with "An unexpected error occurred." |
| `Playback.PlayVoice` | script.js:32-143 | a play sends one `speak` (trimmed text, selected voice) and sets the flag if and only if it is accepted; buttons never change; every rejection, including one while playing, leaves the flag false and shows the generic message; only the missing-voice case changes the selection, to the engine's first voice |
| `Playback.GuardedPlayVoice` | script.js:32-143 | corrected play: the same acceptance, `speak` and selection fallback; a rejection keeps the flag as it was and shows its own reason; an accepted play switches to the Speaking layout and leaves the error region alone |
| `Playback.OnError` | script.js:76-119 | the error callback shows the code's message, clears the flag and shows the Idle layout; no command is sent and the selection is kept |
| `Playback.OnEnd` | script.js:121-125 | the end callback clears the flag and shows the Idle layout; nothing else changes |
| `Playback.StopClicked` | script.js:194-201 | stop while idle changes nothing; stop while playing sends one `cancel`, clears the flag, shows the Idle layout and "Speech playback stopped." |
| `Playback.Populate` | script.js:157-191 | an empty voice list changes nothing and asks for a retry; otherwise the options are rebuilt from the list and the selection is `ChooseVoice`'s; nothing else changes |
| `Playback.ChangeVoice` | script.js:228-239 | the dropdown handler selects the first voice whose name equals the dropdown's value, or nothing; nothing else changes |
| `Playback.GuardedChangeVoice` | script.js:228-239 | corrected dropdown handler: selects the first voice whose option value equals the dropdown's value; nothing else changes |
| `PlaybackTraces.AsWrittenStopNeverShown` | script.js:210-220 | as written, once stop is hidden no sequence of events ever shows it again |
| `PlaybackTraces.AsWrittenPlayKeepsIdleLayout` | script.js:57-127 | as written, an accepted play from a consistent page sets the flag but leaves the buttons out of step with it |
| `PlaybackTraces.AsWrittenSecondSpeakWhileSpeaking` | script.js:35-142 | as written, play, play, play with no end event in between sends two `speak` commands |
| `PlaybackTraces.AsWrittenHidesRejectionReason` | script.js:35-142 | as written, a rejected play never shows the reason of the guard it failed |
| `PlaybackTraces.CorrectedKeepsRequestInFlight` | script.js:35-38 | corrected: while playing, no event other than end, error or stop sends a command or clears the flag |
| `PlaybackTraces.CorrectedLayoutFollowsFlag` | script.js:210-220 | corrected: if the buttons match the flag, they match it after any sequence of events |
| `PlaybackTraces.AsWrittenChangeMissesOption` | script.js:170-232 | as written, choosing the only option of a one-voice dropdown, whose value is its collapsed label, selects no voice |
| `PlaybackTraces.CorrectedChangeSelectsChosen` | script.js:228-232 | corrected: choosing the option of voice `i` selects a voice whose option has the same value, and exactly voice `i` when option values are distinct |
| `PlaybackTraces.PopulateIdempotent` | script.js:166-191 | a second pass over the same voice list changes nothing |
| `Script.Controller.constructor` | script.js:11-17 | the page before `window.onload`'s first populating pass is idle with no voice, play shown and stop hidden; no command has been sent |
| `Script.Controller.DisplayError` | script.js:204-207 | updates the fields as `Playback.DisplayError` says |
| `Script.Controller.ToggleButtonState` | script.js:210-220 | updates the fields as `Playback.ToggleButtonState` says; the buttons then match the flag |
| `Script.Controller.TryPlay` | script.js:33-127 | runs the guards in place, ending in the page and thrown-flag `Playback.TryPlay` gives |
| `Script.Controller.PlayVoice` | script.js:32-143 | the try block, then the catch block when it threw, ending in the state `Playback.PlayVoice` gives |
| `Script.Controller.OnError` | script.js:76-119 | updates the fields as `Playback.OnError` says |
| `Script.Controller.OnEnd` | script.js:121-125 | updates the fields as `Playback.OnEnd` says |
| `Script.Controller.StopClicked` | script.js:194-201 | updates the fields as `Playback.StopClicked` says |
| `Script.Controller.TextInput` | script.js:223-225 | updates the fields as `Playback.HideError` says |
| `Script.Controller.ForEachVoice` | script.js:168-185 | the `forEach` loop appends one label per voice, in the engine's order, and leaves selected the first voice flagged default when nothing was selected before |
| `Script.Controller.AddVoiceOption` | script.js:168-185 | the `forEach` callback appends the voice's label and selects the voice when it is flagged default and nothing is selected |
| `Script.Controller.PopulateVoiceList` | script.js:157-191 | the loop over the voices and the first-voice fallback end in the state and outcome `Playback.Populate` gives |
| `Script.Controller.VoiceSelectChanged` | script.js:228-239 | updates the selection as `Playback.ChangeVoice` says |

## Findings

| source | as written | input that shows it | evidently intended | confidence | as-written member | corrected member |
|---|---|---|---|---|---|---|
| script.js:138-142 | the `catch` clears `isAudioPlaying` even when the rejection was "audio is still playing" | with a voice selected: play "hi", play "hi", play "hi", with no end event; the third play sends a second `speak` while the first is in flight | a play rejected while playing leaves the flag and the request in flight alone | not executed; high | `PlaybackTraces.AsWrittenSecondSpeakWhileSpeaking` | `PlaybackTraces.CorrectedKeepsRequestInFlight` |
| script.js:36-53 | each guard's message is overwritten at once by the catch's "An unexpected error occurred." | play with text "   " shows the generic message, never "Please enter text to be spoken." | the failing guard's message stays on screen | not executed; high | `PlaybackTraces.AsWrittenHidesRejectionReason` | `Playback.GuardedPlayVoice` |
| script.js:61-127 | an accepted play never calls `toggleButtonState`; every call that does happen comes after the flag is cleared, so the stop button is never shown | page load, then play "hi" with a voice selected: stop stays hidden while audio plays | an accepted play switches to the Speaking layout, so stop can be pressed | not executed; high | `PlaybackTraces.AsWrittenStopNeverShown` | `PlaybackTraces.CorrectedLayoutFollowsFlag` |
| script.js:229-232 | the handler compares the dropdown's value with `voice.name`; the options have no `value` attribute, so by the HTML rules their value is their text, the label `name (lang)`, with ASCII white space stripped and collapsed; that value keeps the name's non-white-space characters plus `(` and `)`, so it never equals the name | voices `[Alice, en-US, not default]`; choosing the option "Alice (en-US)" sets `selectedVoice` to undefined | the chosen option's voice is selected | not executed; medium (depends on the HTML option-value rule) | `PlaybackTraces.AsWrittenChangeMissesOption` | `PlaybackTraces.CorrectedChangeSelectsChosen` |

The corrected definitions are `Playback.GuardedPlayVoice` and
`Playback.GuardedChangeVoice`. `PlaybackTraces` runs them as the `Corrected`
variant. `Script.Controller` models the page as written.

## Left out

- DOM lookups, `addEventListener` wiring and `window.onload` (script.js:1-30) are not modelled. The constructor stands for the page after script.js:11-17 with an engine present. The populating pass that `window.onload` then runs (script.js:25) is a separate `PopulateVoiceList` call, or a `VoicesChanged` event in a trace. The initial error text, error visibility, disabled flags and options come from the page markup, which is not part of this model, so they are parameters.
- The `!synth` branch of `window.onload` is not modelled. It calls `disableControls`, which the script never defines.
- The checks at the top of `populateVoiceList` for a missing engine (script.js:147-155) are not modelled. The model assumes an engine is present.
- The `setTimeout` retry of `populateVoiceList` is not modelled. The model covers one pass, which returns `Retry` on an empty list. A later pass is another populate event.
- The host speech engine and `SpeechSynthesisUtterance` are not modelled. They become the command log and a voice-list parameter. Notifications the engine may send after a `cancel`, such as the "interrupted" code, reach the model only as an `OnError` call with that code. Exceptions thrown by the host calls inside the `try` are not modelled: `synth.getVoices()` (script.js:51), `new SpeechSynthesisUtterance` (script.js:57) and `synth.speak` (script.js:127). A throw from `speak` would reach the `catch` after the flag was set at script.js:61.
- The dropdown's displayed selection (`selectArea.value = ...`, script.js:182, 190) and the `data-lang`/`data-name` attributes are not modelled. The change handler takes the dropdown's value as a parameter.
- The global `textValue` is not a field. It is written by `playVoice` and read nowhere else. The trimmed text it holds appears in the `Speak` command.
- Console output and the commented-out timeout code (script.js:65-74, 129-137) are not modelled.
- Voices are compared as values, not as object references. The script only tests a voice for truthiness and compares names.
- JavaScript strings are UTF-16 code units, while the model's strings are sequences of Unicode scalar values.
- textToSpeech.js is not part of this model. It is a separate click handler that forwards the text to the engine.

=== FILE: controller.dfy ===
/**
 * The page controller of script.js as an object: the module-level globals,
 * the error element, the two buttons and the dropdown become fields, and
 * each handler a method that updates them in place. Each method is proved
 * to leave the page in the state its handler function in `Playback`
 * describes.
 */
module Script {
  import opened Wrappers
  import opened JsString
  import opened Voices
  import opened EngineErrors
  import opened Playback

  class Controller {
    var isAudioPlaying: bool
    var selectedVoice: Option<Voice>
    /** The error element's text and whether it is displayed. */
    var errorText: string
    var errorVisible: bool
    /** The `disabled` properties and the visibility of the play and stop buttons. */
    var playDisabled: bool
    var stopDisabled: bool
    var playVisible: bool
    var stopVisible: bool
    /** The labels of the dropdown's options, in order. */
    var options: seq<string>
    /** The commands sent to the speech engine so far. */
    var log: seq<Command>

    /** The whole page as a value. */
    function State(): Page
      reads this
    {
      Page(isAudioPlaying, selectedVoice, errorText, errorVisible,
           playDisabled, stopDisabled, playVisible, stopVisible, options, log)
    }

    /**
     * The page as the script's top level and the first two statements of
     * `window.onload` leave it: idle, no voice, play shown and stop hidden.
     * The populating pass that `window.onload` runs next is a separate call
     * of `PopulateVoiceList`. The values the page markup gives the other
     * fields are parameters.
     */
    constructor (markupErrorText: string, markupErrorVisible: bool,
                 markupPlayDisabled: bool, markupStopDisabled: bool, markupOptions: seq<string>)
      ensures State() == Page(false, None, markupErrorText, markupErrorVisible,
                              markupPlayDisabled, markupStopDisabled, true, false, markupOptions, [])
    {
      isAudioPlaying := false;
      selectedVoice := None;
      errorText, errorVisible := markupErrorText, markupErrorVisible;
      playDisabled, stopDisabled := markupPlayDisabled, markupStopDisabled;
      playVisible := true;
      stopVisible := false;
      options := markupOptions;
      log := [];
    }

    /** `displayError`. */
    method DisplayError(message: string)
      modifies this
      ensures State() == Playback.DisplayError(old(State()), message)
    {
      errorText := message;
      errorVisible := true;
    }

    /** `toggleButtonState`. */
    method ToggleButtonState()
      modifies this
      ensures State() == Playback.ToggleButtonState(old(State()))
      ensures LayoutMatches(State())
    {
      playDisabled := isAudioPlaying;
      stopDisabled := !isAudioPlaying;
      if !isAudioPlaying {
        playVisible := true;
        stopVisible := false;
      } else {
        playVisible := false;
        stopVisible := true;
      }
    }

    /**
     * The `try` block of `playVoice`, with the engine's current voice list as
     * a parameter; `thrown` says whether a guard threw.
     */
    method TryPlay(text: string, voices: seq<Voice>) returns (thrown: bool)
      modifies this
      ensures State() == Playback.TryPlay(old(State()), text, voices).0
      ensures thrown == Playback.TryPlay(old(State()), text, voices).1
    {
      ghost var start := State();
      thrown := false;
      if isAudioPlaying {
        DisplayError(BusyMessage);
        thrown := true;
        assert State() == Playback.DisplayError(start, BusyMessage);
      } else {
        var textValue := Trim(text);
        if textValue == "" {
          DisplayError(EmptyTextMessage);
          thrown := true;
          assert State() == Playback.DisplayError(start, EmptyTextMessage);
        } else if selectedVoice.None? {
          selectedVoice := FirstVoice(voices);
          ghost var chosen := State();
          DisplayError(NoVoiceMessage);
          thrown := true;
          assert State() == Playback.DisplayError(chosen, NoVoiceMessage);
        } else {
          isAudioPlaying := true;
          log := log + [Speak(textValue, selectedVoice.value)];
        }
      }
    }

    /** `playVoice`: the `try` block, then the `catch` block when it threw. */
    method PlayVoice(text: string, voices: seq<Voice>)
      modifies this
      ensures State() == Playback.PlayVoice(old(State()), text, voices)
    {
      var thrown := TryPlay(text, voices);
      if thrown {
        isAudioPlaying := false;
        DisplayError(UnexpectedMessage);
      }
    }

    /** The utterance's `onerror` callback, given the event's error code. */
    method OnError(code: string)
      modifies this
      ensures State() == Playback.OnError(old(State()), code)
    {
      var message := ErrorMessage(code);
      DisplayError(message);
      isAudioPlaying := false;
      ToggleButtonState();
    }

    /** The utterance's `onend` callback. */
    method OnEnd()
      modifies this
      ensures State() == Playback.OnEnd(old(State()))
    {
      isAudioPlaying := false;
      ToggleButtonState();
    }

    /** The stop button's click handler. */
    method StopClicked()
      modifies this
      ensures State() == Playback.StopClicked(old(State()))
    {
      if isAudioPlaying {
        log := log + [Cancel];
        isAudioPlaying := false;
        ToggleButtonState();
        DisplayError(StoppedMessage);
      }
    }

    /** The text area's input handler. */
    method TextInput()
      modifies this
      ensures State() == HideError(old(State()))
    {
      errorVisible := false;
    }

    /**
     * The callback `populateVoiceList` runs for each voice: append the
     * voice's option, and select the voice if it is flagged default and
     * nothing is selected yet.
     */
    method AddVoiceOption(voice: Voice)
      modifies this`options, this`selectedVoice
      ensures options == old(options) + [Label(voice)]
      ensures selectedVoice ==
        if voice.isDefault && old(selectedVoice).None? then Some(voice) else old(selectedVoice)
      ensures State() == old(State()).(options := options, selectedVoice := selectedVoice)
    {
      options := options + [Label(voice)];
      if voice.isDefault && selectedVoice.None? {
        selectedVoice := Some(voice);
      }
    }

    /**
     * `voices.forEach(...)` in `populateVoiceList`: the callback runs once per
     * voice, in order, appending the voices' labels to the options and
     * selecting the first default voice when nothing was selected.
     */
    method ForEachVoice(voices: seq<Voice>)
      modifies this`options, this`selectedVoice
      ensures options == old(options) + Labels(voices)
      ensures selectedVoice ==
        if old(selectedVoice).Some? then old(selectedVoice) else FirstDefault(voices)
      ensures State() == old(State()).(options := options, selectedVoice := selectedVoice)
    {
      var i := 0;
      while i < |voices|
        invariant 0 <= i <= |voices|
        invariant options == old(options) + Labels(voices[..i])
        invariant selectedVoice ==
          if old(selectedVoice).Some? then old(selectedVoice) else FirstDefault(voices[..i])
      {
        ghost var done := voices[..i];
        AddVoiceOption(voices[i]);
        assert voices[..i + 1] == done + [voices[i]];
        LabelsSnoc(done, voices[i]);
        FirstDefaultSnoc(done, voices[i]);
        i := i + 1;
      }
      assert voices[..i] == voices;
    }

    /**
     * One pass of `populateVoiceList` over the engine's current list: an
     * empty list asks for a retry; otherwise the options are cleared and
     * rebuilt by the `forEach`, then the first voice is the fallback when no
     * default voice was selected.
     */
    method PopulateVoiceList(voices: seq<Voice>) returns (outcome: PopulateOutcome)
      modifies this
      ensures (State(), outcome) == Populate(old(State()), voices)
    {
      if voices == [] {
        return Retry;
      }
      options := [];
      ForEachVoice(voices);
      assert options == Labels(voices);
      if selectedVoice.None? && |voices| > 0 {
        selectedVoice := Some(voices[0]);
      }
      outcome := Populated;
    }

    /** The dropdown's change handler, given the dropdown's value and the engine's current list. */
    method VoiceSelectChanged(value: string, voices: seq<Voice>)
      modifies this
      ensures State() == ChangeVoice(old(State()), value, voices)
    {
      selectedVoice := FindByName(voices, value);
    }
  }
}

=== FILE: engine_errors.dfy ===
/** The messages shown for the error codes the speech engine reports. */
module EngineErrors {
  import opened Wrappers

  /** The ten codes the error callback recognises. */
  const KnownCodes: set<string> := {
    "audio-busy", "audio-hardware", "network", "synthesis-unavailable",
    "synthesis-failed", "language-unavailable", "voice-unavailable",
    "text-too-long", "invalid-argument", "not-allowed"
  }

  const UnknownErrorMessage: string := "Unknown error occurred"

  /**
   * The `switch` of the error callback: a fixed message per recognised code
   * and the unknown-error message for every other code.
   */
  function ErrorMessage(code: string): (m: string)
    ensures m == UnknownErrorMessage <==> code !in KnownCodes
    ensures m != ""
  {
    if code == "audio-busy" then "Audio device is currently in use"
    else if code == "audio-hardware" then "No audio hardware available"
    else if code == "network" then "Network communication failed"
    else if code == "synthesis-unavailable" then "Speech synthesis engine unavailable"
    else if code == "synthesis-failed" then "Failed to synthesize speech"
    else if code == "language-unavailable" then "Selected voice language unavailable"
    else if code == "voice-unavailable" then "Selected voice unavailable"
    else if code == "text-too-long" then "Text too long to synthesize"
    else if code == "invalid-argument" then "Invalid parameters provided"
    else if code == "not-allowed" then "Operation not allowed"
    else UnknownErrorMessage
  }

  /** The code a shown message stands for, if it stands for a recognised one. */
  function CodeOf(message: string): Option<string> {
    if message == "Audio device is currently in use" then Some("audio-busy")
    else if message == "No audio hardware available" then Some("audio-hardware")
    else if message == "Network communication failed" then Some("network")
    else if message == "Speech synthesis engine unavailable" then Some("synthesis-unavailable")
    else if message == "Failed to synthesize speech" then Some("synthesis-failed")
    else if message == "Selected voice language unavailable" then Some("language-unavailable")
    else if message == "Selected voice unavailable" then Some("voice-unavailable")
    else if message == "Text too long to synthesize" then Some("text-too-long")
    else if message == "Invalid parameters provided" then Some("invalid-argument")
    else if message == "Operation not allowed" then Some("not-allowed")
    else None
  }

  /** Distinct recognised codes show distinct messages: the message identifies its code. */
  lemma MessageIdentifiesCode(code: string)
    requires code in KnownCodes
    ensures CodeOf(ErrorMessage(code)) == Some(code)
  {
    if code == "audio-busy" {
      assert ErrorMessage(code) == "Audio device is currently in use";
    } else if code == "audio-hardware" {
      assert ErrorMessage(code) == "No audio hardware available";
    } else if code == "network" {
      assert ErrorMessage(code) == "Network communication failed";
    } else if code == "synthesis-unavailable" {
      assert ErrorMessage(code) == "Speech synthesis engine unavailable";
    } else if code == "synthesis-failed" {
      assert ErrorMessage(code) == "Failed to synthesize speech";
    } else if code == "language-unavailable" {
      assert ErrorMessage(code) == "Selected voice language unavailable";
    } else if code == "voice-unavailable" {
      assert ErrorMessage(code) == "Selected voice unavailable";
    } else if code == "text-too-long" {
      assert ErrorMessage(code) == "Text too long to synthesize";
    } else if code == "invalid-argument" {
      assert ErrorMessage(code) == "Invalid parameters provided";
    } else if code == "not-allowed" {
      assert ErrorMessage(code) == "Operation not allowed";
    }
  }
}

=== FILE: html_text.dfy ===
/**
 * The HTML rule that gives an `<option>` without a `value` attribute its
 * value: the option's text with ASCII white space stripped from both ends
 * and every inner run of it collapsed to one space.
 */
module HtmlText {

  /** ASCII white space as HTML defines it: tab, line feed, form feed, carriage return and space. */
  predicate IsAsciiWhiteSpace(c: char) {
    c == '\t' || c == '\n' || c == '\U{000C}' || c == '\r' || c == ' '
  }

  /** The characters of `s` that are not ASCII white space, in order. */
  function Visible(s: string): (r: string)
    ensures |r| <= |s|
    ensures forall k :: 0 <= k < |r| ==> !IsAsciiWhiteSpace(r[k])
  {
    if s == [] then []
    else (if IsAsciiWhiteSpace(s[0]) then [] else [s[0]]) + Visible(s[1..])
  }

  /** `Visible` distributes over concatenation. */
  lemma {:induction false} VisibleConcat(a: string, b: string)
    ensures Visible(a + b) == Visible(a) + Visible(b)
    decreases |a|
  {
    if a == [] {
      assert a + b == b;
    } else {
      assert (a + b)[0] == a[0] && (a + b)[1..] == a[1..] + b;
      VisibleConcat(a[1..], b);
    }
  }

  /** `Visible` of a sequence with one character in front. */
  lemma VisibleCons(c: char, s: string)
    ensures Visible([c] + s) == (if IsAsciiWhiteSpace(c) then [] else [c]) + Visible(s)
  {
    assert ([c] + s)[1..] == s;
  }

  /** Every ASCII white space in `r` is a single space with a visible character after it. */
  predicate SingleSpaced(r: string) {
    forall k :: 0 <= k < |r| && IsAsciiWhiteSpace(r[k]) ==>
      r[k] == ' ' && k + 1 < |r| && !IsAsciiWhiteSpace(r[k + 1])
  }

  /** Putting a visible character in front of a single-spaced text, or a space in front of one that starts visibly. */
  lemma SingleSpacedCons(c: char, s: string)
    requires SingleSpaced(s)
    requires !IsAsciiWhiteSpace(c) || (c == ' ' && s != [] && !IsAsciiWhiteSpace(s[0]))
    ensures SingleSpaced([c] + s)
  {
    var t := [c] + s;
    forall k | 0 < k < |t| ensures t[k] == s[k - 1] { }
  }

  /**
   * Collapses `s` left to right. `started` says a visible character has
   * already been emitted; `gap` says white space has been skipped since then,
   * so one space is owed before the next visible character.
   */
  function CollapseFrom(s: string, started: bool, gap: bool): (r: string)
    ensures Visible(r) == Visible(s)
    ensures r == [] || !IsAsciiWhiteSpace(r[|r| - 1])
    ensures !started && !gap ==> r == [] || !IsAsciiWhiteSpace(r[0])
    ensures SingleSpaced(r)
    decreases |s|
  {
    if s == [] then []
    else if IsAsciiWhiteSpace(s[0]) then
      VisibleCons(s[0], s[1..]);
      CollapseFrom(s[1..], started, started)
    else
      var rest := CollapseFrom(s[1..], true, false);
      VisibleCons(s[0], rest);
      VisibleCons(s[0], s[1..]);
      SingleSpacedCons(s[0], rest);
      var word := [s[0]] + rest;
      if gap then
        VisibleCons(' ', word);
        SingleSpacedCons(' ', word);
        [' '] + word
      else word
  }

  /**
   * "Strip and collapse ASCII whitespace": no white space at either end,
   * every inner run replaced by one space, and the visible characters kept.
   */
  function Collapse(s: string): (r: string)
    ensures Visible(r) == Visible(s)
    ensures r == [] || (!IsAsciiWhiteSpace(r[0]) && !IsAsciiWhiteSpace(r[|r| - 1]))
    ensures SingleSpaced(r)
  {
    CollapseFrom(s, false, false)
  }
}

=== FILE: js_string.dfy ===
/** The part of JavaScript's string semantics the page relies on: `String.prototype.trim`. */
module JsString {

  /**
   * The characters `trim` removes: the ECMAScript WhiteSpace set (tab, vertical
   * tab, form feed, space, no-break space, byte-order mark and every other
   * space separator) and the LineTerminator set (LF, CR, U+2028, U+2029).
   */
  predicate IsWhiteSpace(c: char) {
    c == '\t' || c == '\n' || c == '\U{000B}' || c == '\U{000C}' || c == '\r'
    || c == ' ' || c == '\U{00A0}' || c == '\U{1680}'
    || ('\U{2000}' <= c <= '\U{200A}')
    || c == '\U{2028}' || c == '\U{2029}' || c == '\U{202F}' || c == '\U{205F}'
    || c == '\U{3000}' || c == '\U{FEFF}'
  }

  predicate AllWhiteSpace(s: string) {
    forall i :: 0 <= i < |s| ==> IsWhiteSpace(s[i])
  }

  /** Drops the leading white space: the result is the suffix starting at the first other character. */
  function TrimStart(s: string): (r: string)
    ensures |r| <= |s| && r == s[|s| - |r|..]
    ensures AllWhiteSpace(s[..|s| - |r|])
    ensures r == [] || !IsWhiteSpace(r[0])
  {
    if s != [] && IsWhiteSpace(s[0]) then TrimStart(s[1..]) else s
  }

  /** Drops the trailing white space: the result is the prefix ending at the last other character. */
  function TrimEnd(s: string): (r: string)
    ensures |r| <= |s| && r == s[..|r|]
    ensures AllWhiteSpace(s[|r|..])
    ensures r == [] || !IsWhiteSpace(r[|r| - 1])
  {
    if s != [] && IsWhiteSpace(s[|s| - 1]) then TrimEnd(s[..|s| - 1]) else s
  }

  /** `r` occurs in `s` starting at index `i`. */
  predicate OccursAt(r: string, s: string, i: int) {
    0 <= i && i + |r| <= |s| && s[i..i + |r|] == r
  }

  /** `s.trim()`: `s` without its leading and trailing white space. */
  function Trim(s: string): (r: string)
    ensures |r| <= |s|
    ensures r != [] ==> !IsWhiteSpace(r[0]) && !IsWhiteSpace(r[|r| - 1])
  {
    var t := TrimStart(s);
    var r := TrimEnd(t);
    assert r != [] ==> r[0] == t[0];
    r
  }

  /**
   * What `trim` promises: the result is a contiguous piece of `s` that
   * neither starts nor ends with white space, everything before and after
   * it is white space, and it is empty exactly when `s` is all white space.
   */
  lemma TrimSpec(s: string)
    ensures Trim(s) == [] <==> AllWhiteSpace(s)
    ensures Trim(s) != [] ==> !IsWhiteSpace(Trim(s)[0]) && !IsWhiteSpace(Trim(s)[|Trim(s)| - 1])
    ensures exists i :: OccursAt(Trim(s), s, i) && AllWhiteSpace(s[..i]) && AllWhiteSpace(s[i + |Trim(s)|..])
  {
    var t := TrimStart(s);
    var r := TrimEnd(t);
    var i := |s| - |t|;
    assert OccursAt(r, s, i);
    assert s[i + |r|..] == t[|r|..];
    if r == [] {
      AllWhiteSpaceSplit(s, |s| - |t|);
    } else {
      assert r[0] == t[0];
    }
  }

  /** `r` sits at `i` in `s` with non-white-space ends and only white space around it. */
  predicate TrimmedPieceAt(s: string, r: string, i: int) {
    OccursAt(r, s, i) && AllWhiteSpace(s[..i]) && AllWhiteSpace(s[i + |r|..])
    && (r != [] ==> !IsWhiteSpace(r[0]) && !IsWhiteSpace(r[|r| - 1]))
  }

  /** A piece of `s` that meets every clause of `TrimSpec` is `Trim(s)`: the clauses determine `trim`. */
  lemma TrimUnique(s: string, r: string, i: int)
    requires TrimmedPieceAt(s, r, i)
    requires r == [] <==> AllWhiteSpace(s)
    ensures r == Trim(s)
  {
    TrimSpec(s);
    var t := Trim(s);
    var j :| OccursAt(t, s, j) && AllWhiteSpace(s[..j]) && AllWhiteSpace(s[j + |t|..]);
    if r != [] {
      PieceUnique(s, r, i, t, j);
    }
  }

  /** Two non-empty trimmed pieces of the same text are the same piece. */
  lemma PieceUnique(s: string, r: string, i: int, t: string, j: int)
    requires r != [] && t != []
    requires TrimmedPieceAt(s, r, i) && TrimmedPieceAt(s, t, j)
    ensures r == t
  {
    PieceBounds(s, r, i);
    PieceBounds(s, t, j);
    assert i == j;
    assert |r| == |t|;
  }

  /** A non-empty trimmed piece starts at the first and ends at the last non-white-space character. */
  lemma PieceBounds(s: string, r: string, i: int)
    requires r != [] && TrimmedPieceAt(s, r, i)
    ensures 0 <= i < |s| && !IsWhiteSpace(s[i]) && forall k :: 0 <= k < i ==> IsWhiteSpace(s[k])
    ensures i + |r| <= |s| && !IsWhiteSpace(s[i + |r| - 1])
    ensures forall k :: i + |r| <= k < |s| ==> IsWhiteSpace(s[k])
  {
    assert s[i] == r[0] && s[i + |r| - 1] == r[|r| - 1];
    forall k | 0 <= k < i ensures IsWhiteSpace(s[k]) {
      assert s[..i][k] == s[k];
    }
    forall k | i + |r| <= k < |s| ensures IsWhiteSpace(s[k]) {
      assert s[i + |r|..][k - i - |r|] == s[k];
    }
  }

  /** `s` is all white space when both sides of a split are. */
  lemma AllWhiteSpaceSplit(s: string, k: nat)
    requires k <= |s| && AllWhiteSpace(s[..k]) && AllWhiteSpace(s[k..])
    ensures AllWhiteSpace(s)
  {
    forall i | 0 <= i < |s| ensures IsWhiteSpace(s[i]) {
      if i < k {
        assert s[..k][i] == s[i];
      } else {
        assert s[k..][i - k] == s[i];
      }
    }
  }
}

=== FILE: playback.dfy ===
/**
 * The page's state as a value and each handler of script.js as a function
 * from the state before it runs to the state after. The speech engine is
 * reduced to the log of commands the page sends it.
 */
module Playback {
  import opened Wrappers
  import opened JsString
  import opened Voices
  import opened EngineErrors

  /** A command sent to the speech engine. */
  datatype Command = Speak(text: string, voice: Voice) | Cancel

  /** Whether a populating pass filled the dropdown or found no voices yet and asks to be run again. */
  datatype PopulateOutcome = Populated | Retry

  /**
   * Everything the handlers read or write: the two globals, the error
   * region, the four button properties, the dropdown's option labels and
   * the commands sent to the engine so far.
   */
  datatype Page = Page(
    isAudioPlaying: bool,
    selectedVoice: Option<Voice>,
    errorText: string,
    errorVisible: bool,
    playDisabled: bool,
    stopDisabled: bool,
    playVisible: bool,
    stopVisible: bool,
    options: seq<string>,
    log: seq<Command>)

  const BusyMessage: string := "Audio is still playing, please wait."
  const EmptyTextMessage: string := "Please enter text to be spoken."
  const NoVoiceMessage: string := "No voice selected."
  const UnexpectedMessage: string := "An unexpected error occurred."
  const StoppedMessage: string := "Speech playback stopped."

  /** The Idle layout: play enabled and shown, stop disabled and hidden. */
  predicate IdleLayout(p: Page) {
    !p.playDisabled && p.stopDisabled && p.playVisible && !p.stopVisible
  }

  /** The Speaking layout: play disabled and hidden, stop enabled and shown. */
  predicate SpeakingLayout(p: Page) {
    p.playDisabled && !p.stopDisabled && !p.playVisible && p.stopVisible
  }

  /** The buttons show the layout of the current playback state. */
  predicate LayoutMatches(p: Page) {
    if p.isAudioPlaying then SpeakingLayout(p) else IdleLayout(p)
  }

  predicate SameButtons(p: Page, q: Page) {
    p.playDisabled == q.playDisabled && p.stopDisabled == q.stopDisabled
    && p.playVisible == q.playVisible && p.stopVisible == q.stopVisible
  }

  /** `q` differs from `p` at most in the error region. */
  predicate OnlyErrorRegionChanged(p: Page, q: Page) {
    q.(errorText := p.errorText, errorVisible := p.errorVisible) == p
  }

  /** `q` differs from `p` at most in the flag and the buttons. */
  predicate OnlyFlagAndButtonsChanged(p: Page, q: Page) {
    q.(isAudioPlaying := p.isAudioPlaying, playDisabled := p.playDisabled,
       stopDisabled := p.stopDisabled, playVisible := p.playVisible,
       stopVisible := p.stopVisible) == p
  }

  /** `displayError`: the error region shows `message`, nothing else changes. */
  function DisplayError(p: Page, message: string): (r: Page)
    ensures r.errorText == message && r.errorVisible
    ensures OnlyErrorRegionChanged(p, r)
  {
    p.(errorText := message, errorVisible := true)
  }

  /** The text-input handler: the error region is hidden, its text kept, nothing else changes. */
  function HideError(p: Page): (r: Page)
    ensures !r.errorVisible && r.errorText == p.errorText
    ensures OnlyErrorRegionChanged(p, r)
  {
    p.(errorVisible := false)
  }

  /** `toggleButtonState`: the buttons take the layout of the flag; nothing else changes. */
  function ToggleButtonState(p: Page): (r: Page)
    ensures LayoutMatches(r) && r.isAudioPlaying == p.isAudioPlaying
    ensures OnlyFlagAndButtonsChanged(p, r)
  {
    p.(playDisabled := p.isAudioPlaying, stopDisabled := !p.isAudioPlaying,
       playVisible := !p.isAudioPlaying, stopVisible := p.isAudioPlaying)
  }

  /** `getVoices()[0]`: the engine's first voice, or `undefined` for an empty list. */
  function FirstVoice(voices: seq<Voice>): (r: Option<Voice>)
    ensures r.None? <==> voices == []
    ensures r.Some? ==> r.value == voices[0]
  {
    if voices == [] then None else Some(voices[0])
  }

  /** A play attempt gets past all three guards of `playVoice`. */
  predicate Accepts(p: Page, text: string) {
    !p.isAudioPlaying && Trim(text) != "" && p.selectedVoice.Some?
  }

  /** The guard a rejected play attempt stopped at, as the message shown just before the throw. */
  function RejectionReason(p: Page, text: string): string {
    if p.isAudioPlaying then BusyMessage
    else if Trim(text) == "" then EmptyTextMessage
    else NoVoiceMessage
  }

  /**
   * The `try` block of `playVoice`: the page when the block completes or
   * throws, and whether it threw. It throws exactly when a guard rejects the
   * attempt, after showing that guard's reason; the flag, the buttons and the
   * log are then untouched, and only the missing-voice guard changes the
   * selection, to the engine's first voice. When no guard rejects, exactly
   * one `speak` with the trimmed text and the selected voice is sent and the
   * flag is set; nothing else changes.
   */
  function TryPlay(p: Page, text: string, voices: seq<Voice>): (r: (Page, bool))
    ensures r.1 <==> !Accepts(p, text)
    ensures r.1 ==> r.0.errorText == RejectionReason(p, text) && r.0.errorVisible
    ensures r.1 ==> r.0.isAudioPlaying == p.isAudioPlaying && r.0.log == p.log
    ensures r.1 ==> SameButtons(r.0, p) && r.0.options == p.options
    ensures r.0.selectedVoice ==
      if !p.isAudioPlaying && Trim(text) != "" && p.selectedVoice.None?
      then FirstVoice(voices) else p.selectedVoice
    ensures !r.1 ==> r.0 == p.(isAudioPlaying := true,
                               log := p.log + [Speak(Trim(text), p.selectedVoice.value)])
  {
    if p.isAudioPlaying then
      (DisplayError(p, BusyMessage), true)
    else
      var textValue := Trim(text);
      if textValue == "" then
        (DisplayError(p, EmptyTextMessage), true)
      else if p.selectedVoice.None? then
        (DisplayError(p.(selectedVoice := FirstVoice(voices)), NoVoiceMessage), true)
      else
        (p.(isAudioPlaying := true, log := p.log + [Speak(textValue, p.selectedVoice.value)]), false)
  }

  /** The `catch` block of `playVoice`: the flag is cleared and the generic message replaces any other. */
  function Caught(p: Page): (r: Page)
    ensures !r.isAudioPlaying && r.errorText == UnexpectedMessage && r.errorVisible
    ensures r.(isAudioPlaying := p.isAudioPlaying, errorText := p.errorText, errorVisible := p.errorVisible) == p
  {
    DisplayError(p.(isAudioPlaying := false), UnexpectedMessage)
  }

  /**
   * `playVoice` as written. An accepted attempt sends exactly one `speak`
   * with the trimmed text and the selected voice, sets the flag and leaves
   * the buttons alone. Every rejected attempt, including one made while
   * audio is playing, ends in the `catch`: no command, flag false, generic
   * message shown. Only the missing-voice guard touches the selection, and
   * it takes the engine's first voice.
   */
  function PlayVoice(p: Page, text: string, voices: seq<Voice>): (r: Page)
    ensures r.log == if Accepts(p, text)
      then p.log + [Speak(Trim(text), p.selectedVoice.value)] else p.log
    ensures r.isAudioPlaying <==> Accepts(p, text)
    ensures SameButtons(r, p) && r.options == p.options
    ensures Accepts(p, text) ==> r.errorText == p.errorText && r.errorVisible == p.errorVisible
    ensures !Accepts(p, text) ==> r.errorText == UnexpectedMessage && r.errorVisible
    ensures r.selectedVoice ==
      if !p.isAudioPlaying && Trim(text) != "" && p.selectedVoice.None?
      then FirstVoice(voices) else p.selectedVoice
  {
    var (q, thrown) := TryPlay(p, text, voices);
    if thrown then Caught(q) else q
  }

  /**
   * `playVoice` as its guards evidently intend: a rejected attempt keeps the
   * reason of the guard it failed on screen and leaves the flag alone (so a
   * request in flight stays in flight), and an accepted attempt switches the
   * buttons to the Speaking layout.
   */
  function GuardedPlayVoice(p: Page, text: string, voices: seq<Voice>): (r: Page)
    ensures r.log == if Accepts(p, text)
      then p.log + [Speak(Trim(text), p.selectedVoice.value)] else p.log
    ensures r.isAudioPlaying <==> p.isAudioPlaying || Accepts(p, text)
    ensures Accepts(p, text) ==> SpeakingLayout(r)
    ensures !Accepts(p, text) ==> SameButtons(r, p)
    ensures !Accepts(p, text) ==> r.errorText == RejectionReason(p, text) && r.errorVisible
    ensures Accepts(p, text) ==> r.errorText == p.errorText && r.errorVisible == p.errorVisible
    ensures r.options == p.options
    ensures r.selectedVoice ==
      if !p.isAudioPlaying && Trim(text) != "" && p.selectedVoice.None?
      then FirstVoice(voices) else p.selectedVoice
  {
    var (q, thrown) := TryPlay(p, text, voices);
    if thrown then q else ToggleButtonState(q)
  }

  /**
   * The engine's error callback: the code's message is shown, the flag is
   * cleared and the buttons return to the Idle layout; no command is sent.
   */
  function OnError(p: Page, code: string): (r: Page)
    ensures !r.isAudioPlaying && IdleLayout(r)
    ensures r.errorText == ErrorMessage(code) && r.errorVisible
    ensures r.log == p.log && r.selectedVoice == p.selectedVoice && r.options == p.options
  {
    ToggleButtonState(DisplayError(p, ErrorMessage(code)).(isAudioPlaying := false))
  }

  /** The engine's end callback: flag cleared, Idle layout, nothing else changes. */
  function OnEnd(p: Page): (r: Page)
    ensures !r.isAudioPlaying && IdleLayout(r)
    ensures OnlyFlagAndButtonsChanged(p, r)
  {
    ToggleButtonState(p.(isAudioPlaying := false))
  }

  /**
   * The stop button's handler: nothing happens while idle; while playing it
   * sends one `cancel`, clears the flag, shows the Idle layout and the
   * stopped notice.
   */
  function StopClicked(p: Page): (r: Page)
    ensures !p.isAudioPlaying ==> r == p
    ensures p.isAudioPlaying ==> r.log == p.log + [Cancel] && !r.isAudioPlaying && IdleLayout(r)
    ensures p.isAudioPlaying ==> r.errorText == StoppedMessage && r.errorVisible
    ensures r.selectedVoice == p.selectedVoice && r.options == p.options
  {
    if p.isAudioPlaying then
      DisplayError(ToggleButtonState(p.(log := p.log + [Cancel], isAudioPlaying := false)), StoppedMessage)
    else
      p
  }

  /**
   * One pass of `populateVoiceList` over the engine's current list. An empty
   * list changes nothing and asks for a retry. Otherwise the options become
   * one label per voice in order, an existing selection is kept and a
   * missing one is filled as `ChooseVoice` says.
   */
  function Populate(p: Page, voices: seq<Voice>): (r: (Page, PopulateOutcome))
    ensures voices == [] ==> r == (p, Retry)
    ensures voices != [] ==>
              r.1 == Populated && r.0.options == Labels(voices) && r.0.selectedVoice.Some?
              && r.0.selectedVoice == ChooseVoice(p.selectedVoice, voices)
    ensures r.0.(options := p.options, selectedVoice := p.selectedVoice) == p
  {
    if voices == [] then (p, Retry)
    else (p.(options := Labels(voices), selectedVoice := ChooseVoice(p.selectedVoice, voices)), Populated)
  }

  /**
   * The dropdown's change handler as written: the selection becomes the
   * first engine voice whose NAME equals the dropdown's value, or nothing.
   */
  function ChangeVoice(p: Page, value: string, voices: seq<Voice>): (r: Page)
    ensures r.selectedVoice == FindByName(voices, value)
    ensures r.(selectedVoice := p.selectedVoice) == p
  {
    p.(selectedVoice := FindByName(voices, value))
  }

  /**
   * The change handler as evidently intended: the dropdown's value is the
   * chosen option's value, so the selection becomes the first voice whose
   * option has that value.
   */
  function GuardedChangeVoice(p: Page, value: string, voices: seq<Voice>): (r: Page)
    ensures r.selectedVoice == FindByValue(voices, value)
    ensures r.(selectedVoice := p.selectedVoice) == p
  {
    p.(selectedVoice := FindByValue(voices, value))
  }
}

=== FILE: traces.dfy ===
/**
 * Sequences of page events run through the handlers, and what holds along
 * every such sequence: for the handlers as written and for the corrected
 * play and dropdown handlers.
 */
module PlaybackTraces {
  import opened Wrappers
  import opened JsString
  import opened Voices
  import opened Playback

  /** What can happen to the page: user actions and engine notifications. */
  datatype Event =
    | PlayClick(text: string, voices: seq<Voice>)
    | EngineError(code: string)
    | EngineEnd
    | StopClick
    | TextInput
    | VoicesChanged(voices: seq<Voice>)
    | VoiceSelected(value: string, voices: seq<Voice>)

  /** The handlers as the script has them, or with the corrected play and change handlers. */
  datatype Variant = AsWritten | Corrected

  function Step(variant: Variant, p: Page, e: Event): Page {
    match e
    case PlayClick(text, voices) =>
      if variant == AsWritten then PlayVoice(p, text, voices) else GuardedPlayVoice(p, text, voices)
    case EngineError(code) => OnError(p, code)
    case EngineEnd => OnEnd(p)
    case StopClick => StopClicked(p)
    case TextInput => HideError(p)
    case VoicesChanged(voices) => Populate(p, voices).0
    case VoiceSelected(value, voices) =>
      if variant == AsWritten then ChangeVoice(p, value, voices) else GuardedChangeVoice(p, value, voices)
  }

  function Run(variant: Variant, p: Page, events: seq<Event>): Page
    decreases |events|
  {
    if events == [] then p else Run(variant, Step(variant, p, events[0]), events[1..])
  }

  /** An event after which the engine has no request of the page's in flight. */
  predicate EndsRequest(e: Event) {
    e.EngineError? || e.EngineEnd? || e.StopClick?
  }

  /**
   * As written, the stop button is never shown: only `toggleButtonState`
   * shows it, and every handler that calls it has cleared the flag first.
   */
  lemma {:induction false} AsWrittenStopNeverShown(p: Page, events: seq<Event>)
    requires !p.stopVisible
    ensures !Run(AsWritten, p, events).stopVisible
    decreases |events|
  {
    if events != [] {
      AsWrittenStopNeverShown(Step(AsWritten, p, events[0]), events[1..]);
    }
  }

  /** As written, an accepted play leaves the Idle layout on screen while audio plays. */
  lemma AsWrittenPlayKeepsIdleLayout(p: Page, text: string, voices: seq<Voice>)
    requires LayoutMatches(p) && Accepts(p, text)
    ensures PlayVoice(p, text, voices).isAudioPlaying
    ensures !LayoutMatches(PlayVoice(p, text, voices))
  {
  }

  /**
   * As written, a play rejected because audio is playing clears the flag, so
   * the next play is accepted and sends a second `speak` although no end,
   * error or stop came in between.
   */
  lemma AsWrittenSecondSpeakWhileSpeaking(p: Page, text: string, voices: seq<Voice>)
    requires Accepts(p, text)
    ensures Run(AsWritten, p, [PlayClick(text, voices), PlayClick(text, voices), PlayClick(text, voices)]).log
      == p.log + [Speak(Trim(text), p.selectedVoice.value), Speak(Trim(text), p.selectedVoice.value)]
  {
    var e := PlayClick(text, voices);
    var p1 := Step(AsWritten, p, e);
    var p2 := Step(AsWritten, p1, e);
    var p3 := Step(AsWritten, p2, e);
    RunCons(AsWritten, p, e, [e, e]);
    RunCons(AsWritten, p1, e, [e]);
    RunCons(AsWritten, p2, e, []);
    ThirdPlaySpeaks(p, text, voices);
  }

  /** Running a sequence that starts with `e` is running the rest from the page after `e`. */
  lemma RunCons(variant: Variant, p: Page, e: Event, rest: seq<Event>)
    ensures Run(variant, p, [e] + rest) == Run(variant, Step(variant, p, e), rest)
  {
    assert ([e] + rest)[1..] == rest;
  }

  lemma ThirdPlaySpeaks(p: Page, text: string, voices: seq<Voice>)
    requires Accepts(p, text)
    ensures PlayVoice(PlayVoice(PlayVoice(p, text, voices), text, voices), text, voices).log
      == p.log + [Speak(Trim(text), p.selectedVoice.value), Speak(Trim(text), p.selectedVoice.value)]
  {
    var p1 := PlayVoice(p, text, voices);
    var p2 := PlayVoice(p1, text, voices);
    assert !p2.isAudioPlaying && p2.selectedVoice == p.selectedVoice;
    assert Accepts(p2, text);
  }

  /** As written, a rejected play never shows the reason of the guard it failed. */
  lemma AsWrittenHidesRejectionReason(p: Page, text: string, voices: seq<Voice>)
    ensures !Accepts(p, text) ==> PlayVoice(p, text, voices).errorText != RejectionReason(p, text)
  {
  }

  /**
   * Corrected: while a request is in flight, no event other than its end, an
   * engine error or stop sends a command or clears the flag.
   */
  lemma {:induction false} CorrectedKeepsRequestInFlight(p: Page, events: seq<Event>)
    requires p.isAudioPlaying
    requires forall i :: 0 <= i < |events| ==> !EndsRequest(events[i])
    ensures Run(Corrected, p, events).isAudioPlaying
    ensures Run(Corrected, p, events).log == p.log
    decreases |events|
  {
    if events != [] {
      CorrectedKeepsRequestInFlight(Step(Corrected, p, events[0]), events[1..]);
    }
  }

  /** Corrected: the buttons always show the layout of the playback state. */
  lemma {:induction false} CorrectedLayoutFollowsFlag(p: Page, events: seq<Event>)
    requires LayoutMatches(p)
    ensures LayoutMatches(Run(Corrected, p, events))
    decreases |events|
  {
    if events != [] {
      CorrectedStepKeepsLayout(p, events[0]);
      CorrectedLayoutFollowsFlag(Step(Corrected, p, events[0]), events[1..]);
    }
  }

  /** Corrected: one event keeps the buttons in the layout of the playback state. */
  lemma CorrectedStepKeepsLayout(p: Page, e: Event)
    requires LayoutMatches(p)
    ensures LayoutMatches(Step(Corrected, p, e))
  {
    match e
    case PlayClick(text, voices) =>
      var r := GuardedPlayVoice(p, text, voices);
      if Accepts(p, text) {
        assert SpeakingLayout(r) && r.isAudioPlaying;
      } else {
        assert SameButtons(r, p) && r.isAudioPlaying == p.isAudioPlaying;
      }
    case VoicesChanged(voices) =>
      var r := Populate(p, voices).0;
      assert SameButtons(r, p) && r.isAudioPlaying == p.isAudioPlaying;
    case VoiceSelected(value, voices) =>
      var r := GuardedChangeVoice(p, value, voices);
      assert SameButtons(r, p) && r.isAudioPlaying == p.isAudioPlaying;
    case _ =>
  }

  /**
   * As written, choosing the option of a single-voice list selects nothing:
   * the dropdown's value is the option's value, which never equals a voice name.
   */
  lemma AsWrittenChangeMissesOption(p: Page, v: Voice)
    ensures ChangeVoice(p, OptionValue(v), [v]).selectedVoice == None
  {
    OptionValueDiffersFromName(v);
  }

  /**
   * Corrected: choosing the option of `voices[i]` selects a voice whose
   * option has the same value, and exactly `voices[i]` when no two options
   * share a value.
   */
  lemma CorrectedChangeSelectsChosen(p: Page, voices: seq<Voice>, i: int)
    requires 0 <= i < |voices|
    ensures GuardedChangeVoice(p, OptionValue(voices[i]), voices).selectedVoice.Some?
    ensures OptionValue(GuardedChangeVoice(p, OptionValue(voices[i]), voices).selectedVoice.value)
      == OptionValue(voices[i])
    ensures (forall j, k :: 0 <= j < k < |voices| ==> OptionValue(voices[j]) != OptionValue(voices[k])) ==>
      GuardedChangeVoice(p, OptionValue(voices[i]), voices).selectedVoice == Some(voices[i])
  {
    var value := OptionValue(voices[i]);
    var r := FindByValue(voices, value);
    assert r.Some?;
    var k :| FirstValuedAt(voices, k, value) && voices[k] == r.value;
    assert k <= i;
  }

  /** A second populating pass over the same list changes nothing. */
  lemma PopulateIdempotent(p: Page, voices: seq<Voice>)
    ensures Populate(Populate(p, voices).0, voices) == Populate(p, voices)
  {
  }
}

=== FILE: voices.dfy ===
/** The engine's voices and the dropdown entries built from them. */
module Voices {
  import opened Wrappers
  import opened HtmlText

  /** A voice as the engine lists it: name, language tag and the engine's default flag. */
  datatype Voice = Voice(name: string, lang: string, isDefault: bool)

  /**
   * The text appended to the label of a default voice. The script file holds
   * the UTF-8 bytes of an em dash read back as Windows-1252, so the page shows
   * these three characters rather than the dash itself.
   */
  const DefaultSuffix: string := " \U{00E2}\U{20AC}\U{201D} DEFAULT"

  /**
   * The text of the dropdown option for `v`: `name (lang)`, plus the suffix
   * for the default voice. It is always longer than the name.
   */
  function Label(v: Voice): (r: string)
    ensures |r| > |v.name|
  {
    v.name + " (" + v.lang + ")" + (if v.isDefault then DefaultSuffix else "")
  }

  predicate EndsWithDefaultSuffix(text: string) {
    |DefaultSuffix| <= |text| && text[|text| - |DefaultSuffix|..] == DefaultSuffix
  }

  /** A label carries the default suffix exactly when its voice is the default one. */
  lemma LabelMarksDefault(v: Voice)
    ensures EndsWithDefaultSuffix(Label(v)) <==> v.isDefault
  {
    var l := Label(v);
    if !v.isDefault {
      assert l[|l| - 1] == ')';
      assert DefaultSuffix[|DefaultSuffix| - 1] == 'T';
    } else {
      assert l == (v.name + " (" + v.lang + ")") + DefaultSuffix;
    }
  }

  /** A label starts with its voice's name. */
  lemma LabelExtendsName(v: Voice)
    ensures Label(v)[..|v.name|] == v.name
  {
    assert Label(v) == v.name + (" (" + v.lang + ")" + (if v.isDefault then DefaultSuffix else ""));
  }

  /**
   * The value of the option for `v`. The option has no `value` attribute, so
   * HTML takes its text with the white space stripped and collapsed.
   */
  function OptionValue(v: Voice): string {
    Collapse(Label(v))
  }

  /**
   * An option's value never equals its voice's name: the value keeps every
   * visible character of the label, which has those of the name plus `(` and `)`.
   */
  lemma OptionValueDiffersFromName(v: Voice)
    ensures OptionValue(v) != v.name
  {
    LabelShowsMoreThanName(v);
    assert Visible(OptionValue(v)) == Visible(Label(v));
  }

  /** A label has at least two more visible characters than its voice's name: `(` and `)`. */
  lemma LabelShowsMoreThanName(v: Voice)
    ensures |Visible(Label(v))| >= |Visible(v.name)| + 2
  {
    var head := v.name + " (";
    var mid := head + v.lang;
    var closed := mid + ")";
    var tail := if v.isDefault then DefaultSuffix else "";
    assert Label(v) == closed + tail;
    VisibleConcat(closed, tail);
    VisibleConcat(mid, ")");
    VisibleConcat(head, v.lang);
    VisibleConcat(v.name, " (");
    VisibleCons(' ', "(");
    VisibleCons('(', "");
    VisibleCons(')', "");
  }

  /** The option labels, one per voice and in the engine's order. */
  function Labels(voices: seq<Voice>): (r: seq<string>)
    ensures |r| == |voices|
    ensures forall i :: 0 <= i < |voices| ==> r[i] == Label(voices[i])
  {
    seq(|voices|, i requires 0 <= i < |voices| => Label(voices[i]))
  }

  /** `voices[i]` is the first voice named `name`. */
  predicate FirstNamedAt(voices: seq<Voice>, i: int, name: string) {
    0 <= i < |voices| && voices[i].name == name
    && forall j :: 0 <= j < i ==> voices[j].name != name
  }

  /** `voices[i]` is the first voice whose option has the value `value`. */
  predicate FirstValuedAt(voices: seq<Voice>, i: int, value: string) {
    0 <= i < |voices| && OptionValue(voices[i]) == value
    && forall j :: 0 <= j < i ==> OptionValue(voices[j]) != value
  }

  /** `voices[i]` is the first voice flagged default. */
  predicate FirstDefaultAt(voices: seq<Voice>, i: int) {
    0 <= i < |voices| && voices[i].isDefault
    && forall j :: 0 <= j < i ==> !voices[j].isDefault
  }

  /** The labels of a list grown by one voice are the old labels plus that voice's label. */
  lemma LabelsSnoc(voices: seq<Voice>, v: Voice)
    ensures Labels(voices + [v]) == Labels(voices) + [Label(v)]
  {
    var grown := voices + [v];
    assert forall j :: 0 <= j < |voices| ==> grown[j] == voices[j];
  }

  /** The first voice named `name`, as `getVoices().find(voice => voice.name === name)` returns it. */
  function FindByName(voices: seq<Voice>, name: string): (r: Option<Voice>)
    ensures r.None? <==> forall j :: 0 <= j < |voices| ==> voices[j].name != name
    ensures r.Some? ==> exists i :: FirstNamedAt(voices, i, name) && voices[i] == r.value
  {
    match FirstWhere(voices, (v: Voice) => v.name == name)
    case None => None
    case Some(i) => assert FirstNamedAt(voices, i, name); Some(voices[i])
  }

  /** The first voice whose option has the value `value`. */
  function FindByValue(voices: seq<Voice>, value: string): (r: Option<Voice>)
    ensures r.None? <==> forall j :: 0 <= j < |voices| ==> OptionValue(voices[j]) != value
    ensures r.Some? ==> exists i :: FirstValuedAt(voices, i, value) && voices[i] == r.value
  {
    match FirstWhere(voices, (v: Voice) => OptionValue(v) == value)
    case None => None
    case Some(i) => assert FirstValuedAt(voices, i, value); Some(voices[i])
  }

  predicate IsDefaultVoice(v: Voice) {
    v.isDefault
  }

  /** The first voice the engine flags as default, if any. */
  function FirstDefault(voices: seq<Voice>): (r: Option<Voice>)
    ensures r.None? <==> forall j :: 0 <= j < |voices| ==> !voices[j].isDefault
    ensures r.Some? ==> exists i :: FirstDefaultAt(voices, i) && voices[i] == r.value
  {
    match FirstWhere(voices, IsDefaultVoice)
    case None => None
    case Some(i) => assert FirstDefaultAt(voices, i); Some(voices[i])
  }

  /** `FirstDefault` over a list grown by one voice: the earlier default wins. */
  lemma FirstDefaultSnoc(voices: seq<Voice>, v: Voice)
    ensures FirstDefault(voices + [v]) ==
      if FirstDefault(voices).Some? then FirstDefault(voices)
      else if v.isDefault then Some(v) else None
  {
    FirstWhereSnoc(voices, v, IsDefaultVoice);
    assert (voices + [v])[|voices|] == v;
  }

  /**
   * The voice a populating pass leaves selected: an existing selection is
   * kept; otherwise the first voice flagged default, else the first voice.
   */
  function ChooseVoice(current: Option<Voice>, voices: seq<Voice>): (r: Option<Voice>)
    ensures current.Some? ==> r == current
    ensures current.None? && voices != [] ==> r.Some? && r.value in voices
    ensures current.None? && voices == [] ==> r.None?
    ensures current.None? && r.Some? && r.value.isDefault ==>
      exists i :: FirstDefaultAt(voices, i) && voices[i] == r.value
    ensures current.None? && voices != [] && r.Some? && !r.value.isDefault ==>
      r.value == voices[0] && forall j :: 0 <= j < |voices| ==> !voices[j].isDefault
  {
    if current.Some? then current
    else if FirstDefault(voices).Some? then FirstDefault(voices)
    else if voices == [] then None
    else Some(voices[0])
  }
}

=== FILE: wrappers.dfy ===
/** Small helper types shared by the other modules. */
module Wrappers {

  /** A value or nothing; `None` stands for JavaScript's `null` and `undefined`. */
  datatype Option<+T> = None | Some(value: T)

  /**
   * The first index of `xs` whose element satisfies `p`, or `None` when no
   * element does: the search that `Array.prototype.find` performs.
   */
  function FirstWhere<T>(xs: seq<T>, p: T -> bool): (r: Option<nat>)
    ensures r.Some? ==> r.value < |xs| && p(xs[r.value])
    ensures r.Some? ==> forall j :: 0 <= j < r.value ==> !p(xs[j])
    ensures r.None? <==> forall j :: 0 <= j < |xs| ==> !p(xs[j])
  {
    if xs == [] then None
    else if p(xs[0]) then Some(0)
    else match FirstWhere(xs[1..], p)
      case None => None
      case Some(k) => Some(k + 1)
  }

  /** `FirstWhere` over a sequence grown by one element at the end. */
  lemma {:induction false} FirstWhereSnoc<T>(xs: seq<T>, x: T, p: T -> bool)
    ensures FirstWhere(xs + [x], p) ==
      if FirstWhere(xs, p).Some? then FirstWhere(xs, p)
      else if p(x) then Some(|xs|) else None
  {
    var ys := xs + [x];
    assert forall j :: 0 <= j < |xs| ==> ys[j] == xs[j];
    if FirstWhere(xs, p).None? && p(x) {
      assert ys[|xs|] == x;
    }
  }
}
